=== FILE: README.md ===
# Translation channel: message-intake model

A Dafny model of the message-intake pipeline of `channel.py`, a single chat
channel that relays messages for a hub. The channel accepts chat messages
over HTTP. It checks a shared secret, validates the message body, runs the
content through a profanity classifier after translating it into English,
parses an optional `[code]` language directive, and translates the text.
It then appends the outcome to a transcript stored as one JSON file. Every
save keeps only the last 50 records. At startup the channel puts a welcome
record in front of the transcript when it does not already open with a
system record.

Modules, leaf first:

- `Wrappers` (`wrappers.dfy`): `Option`.
- `Text` (`text.dfy`): Python's `str.strip()` over the exact `str.isspace()` character set, and the first index of a character.
- `Config` (`config.dfy`): the constants the intake pipeline uses and the fixed system texts.
- `Messages` (`messages.dfy`): JSON values, the `Message` record, and the pairing invariant. Pairing means every non-system record is immediately followed by a system record with the same timestamp.
- `Store` (`store.dfy`): the stored file (`Missing | Corrupt | Saved`), `read_messages`, `save_messages`, and the 50-record sliding window.
- `Auth` (`auth.dfy`): `check_authorization`.
- `Translation` (`translation.dfy`): directive parsing and `handle_translation`.
- `Channel` (`channel.dfy`): the three routes, the intake decision, multi-request replay, and the startup block.

Each request is one atomic transition `(request, store) -> (reply, store)`.
The two external capabilities are function parameters:
`translate(text, targetCode)` stands for `GoogleTranslator(source='auto', target=code).translate(text)`,
and `profane(text)` stands for `profanity.contains_profanity(text)`.
The startup timestamp `datetime.utcnow().isoformat()` is a string parameter.

Behaviour of the code worth noting:

- An unauthorized request gets status 400 with "Invalid authorization" (`channel.py:68-69`, `90-91`, `98-99`).
- Translator failures are not caught (`channel.py:112`, `172`). A provider error escapes the handler and is not turned into a system notice. The only "no response" from `handle_translation` is an unsupported language code.
- The welcome record is only guaranteed right after startup, and only when fewer than 50 records were stored. With 50 stored, the inserted welcome is truncated away at once (`Channel.StartupLosesWelcomeWhenFull`). Once 50 records are stored, every accepted message pushes out as many of the oldest records as it appends, the welcome first (`Channel.FullTranscriptDropsOldest`).
- A content field that is not a string makes `strip()` raise after the checks (`channel.py:111`). The model answers that request with `Unhandled` and leaves the store as it was.

## Model

| member | source | states |
|---|---|---|
| Text.LeadingSpace | channel.py:111 | the whitespace `strip()` removes in front: all of it is whitespace and the next character is not |
| Text.TrailingSpace | channel.py:111 | the whitespace `strip()` removes at the back: all of it is whitespace and the character before it is not |
| Text.Strip | channel.py:111 | `strip()` returns a contiguous piece of the input with only whitespace around it, and the piece neither starts nor ends with whitespace |
| Text.StripUnpadded | channel.py:111 | stripping any whitespace padding around an already-stripped string returns that string, so `strip()` is fully determined |
| Text.StripIdempotent | channel.py:167 | stripping twice equals stripping once, so re-stripping the already stripped content in `handle_translation` changes nothing |
| Text.FirstIndex | channel.py:162-164 | the position of the first occurrence of a character, or the length when it does not occur (`"]" in content`, `content.index("]")`) |
| Auth.ExpectedHeader | channel.py:60 | the accepted header is the scheme prefix `authkey ` followed by the channel secret, i.e. `"authkey 0987654321"` |
| Auth.CheckAuthorization | channel.py:54-62 | authorized exactly when the header is present and equals `"authkey 0987654321"` |
| Store.ReadMessages | channel.py:72-79 | a missing file or one that is not valid JSON reads as the empty transcript; otherwise its records |
| Store.Window | channel.py:85 | `messages[-50:]` has length `min(n, 50)`, is the suffix of the input of that length, and leaves a list of at most 50 unchanged |
| Store.SaveMessages | channel.py:82-85 | reading back what was saved gives the window of what was given, at most 50 records |
| Store.WindowCompose | channel.py:85 | saving `window(a) + b` stores the same as saving `a + b`, so truncating earlier never loses a record the final truncation keeps |
| Store.WindowIdempotent | channel.py:85 | saving an already saved transcript again stores the same records |
| Store.SavePreservesPaired | channel.py:82-85 | truncation on save never separates a kept user record from its reply |
| Store.WindowMembers | channel.py:85 | every record in a saved window was either already there or among those appended |
| Translation.ParseDirective | channel.py:161-167 | with a leading `[` and some `]`, the code is the trimmed text up to the first `]` and the text is the trimmed rest; otherwise the code is `en` and the text is the trimmed content |
| Translation.FormatDirective | channel.py:144 | the `[code] text` input format the welcome text advertises always carries a directive: it opens with `[` and contains `]`; it is the input of `DirectiveRoundTrip` |
| Translation.DirectiveRoundTrip | channel.py:162-167 | parsing `"[" + code + "] " + text` gives back the code and text, for a trimmed code without `]` and a trimmed text |
| Translation.HandleTranslation | channel.py:169-173 | no response exactly when the parsed code is not one of the seven supported codes, which only a directive can cause; otherwise a non-empty reply made of the success template and the translator's output for the parsed text and code |
| Translation.NoDirectiveTranslatesToDefault | channel.py:165-173 | content without a directive is always translated, into English, from its trimmed text |
| Translation.FormattedDirectiveDispatch | channel.py:162-173 | a `[code] text` message is translated into `code` exactly when `code` is supported, and gets no response otherwise |
| Translation.ExampleFrenchDirective | channel.py:162-164 | `"[fr] Hello"` parses to code `fr`, text `Hello` |
| Translation.ExampleNoDirective | channel.py:165-167 | `"Hello"` parses to code `en`, text `Hello` |
| Translation.ExampleUnknownCode | channel.py:169-170 | `"[xx] Hi"` gets no response |
| Translation.ExampleEmptyCode | channel.py:169-170 | `"[] Hi"` gets no response: the empty code is not supported |
| Channel.HealthCheck | channel.py:65-70 | the channel name is returned exactly to authorized callers; others get 400 "Invalid authorization" |
| Channel.HomePage | channel.py:88-92 | authorized callers get the transcript as read; others get 400 "Invalid authorization" |
| Channel.ShapeError | channel.py:100-108 | the body checks in their fixed order: a null or empty JSON body, then `content`, then `sender`, then `timestamp`; the first missing one names the error, and there is none exactly when all three are present |
| Messages.SystemMessage | channel.py:116 | a system record carries the system sender, the given content and timestamp, and no `extra` key |
| Channel.UserMessage | channel.py:109-130 | the user's record carries the trimmed content, the sender and timestamp as sent, and always an `extra` key: the request's `extra` when it sent one, JSON null otherwise |
| Channel.Dispatch | channel.py:111-134 | moderation comes before translation; a profane or untranslatable message yields one system notice with the request's timestamp; a translated one yields the user's record and the system reply; the result is always paired |
| Channel.Intake | channel.py:97-111 | authorization comes first, then the body checks, then a non-string content fails; only a request passing all of them reaches moderation and translation |
| Channel.SendMessage | channel.py:96-135 | the reply is "OK" exactly when the request is accepted; a rejected request leaves the store untouched and gets 400 "Invalid authorization", 400 with the first failed body check's message, or the unhandled error for a non-string content; an accepted one stores the window of the old transcript plus the decided records |
| Channel.TranslatedPairIsLast | channel.py:128-134 | after a translated message, the last two stored records are the user's record and the translation reply |
| Channel.RoutesCheckAuthorizationFirst | channel.py:65-99 | all three routes answer an unauthorized request with 400 "Invalid authorization" and change nothing |
| Channel.SendMessagePreservesPaired | channel.py:111-134 | every user record stays immediately followed by a system reply with its timestamp |
| Channel.HomePageAfterSendMessage | channel.py:88-135 | a read after a post returns exactly what that post saved, or the earlier transcript when the post was rejected |
| Channel.RefusalStoresOnlyNotice | channel.py:111-126 | a profane or untranslatable message leaves no record of its own: every stored record was there before or is the one fixed system notice |
| Channel.FullTranscriptDropsOldest | channel.py:128-134 | with 50 records stored, an accepted message pushes out exactly as many of the oldest records as it appends, so the first record is not kept |
| Channel.SendMessageStoresContribution | channel.py:96-135 | on a transcript within the limit, one request stores the window of the transcript plus what it appends, and nothing for a rejected request |
| Channel.ReplayKeepsLatestWindow | channel.py:82-135 | handled one after another, requests lose only what the window drops: the final transcript is the last 50 records of the initial one plus everything appended |
| Channel.Startup | channel.py:139-151 | when the transcript is empty or does not open with a system record, the welcome is put in front and saved; it stays first only if fewer than 50 records were stored, otherwise the saved list is the window of the old one; otherwise the store is untouched |
| Channel.Welcome | channel.py:141-150 | the welcome is a system record with the fixed welcome text, stamped with the startup time, with no `extra` key |
| Channel.StartupOnFreshStore | channel.py:139-151 | a missing file or one that is not valid JSON becomes the welcome alone |
| Channel.StartupOpensWithSystem | channel.py:139-151 | below the limit, the transcript after startup opens with a system record, the new welcome unless the old transcript was kept as it was |
| Channel.StartupLosesWelcomeWhenFull | channel.py:139-151 | with exactly 50 records stored and no system record first, startup saves the old transcript unchanged and the welcome is lost |
| Channel.StartupPreservesPaired | channel.py:139-151 | startup keeps the pairing invariant |

## Left out

- `register_command` (`channel.py:36-50`): a one-time outbound HTTP call to the hub. It has no decision logic beyond printing on a non-200 reply.
- `suggest_language_code` (`channel.py:154-158`): the pipeline never calls it. It relies on `difflib` similarity ratios, which are floating-point and internal to the library.
- Flask plumbing: app configuration, route decorators, `jsonify`, `app.run`. Routing is modelled as one function per route.
- The body is modelled as JSON `null` (the absent value) or a JSON object. A JSON body that is a list or a scalar is not modelled, and neither is the 400 Bad Request Flask gives before the handler runs for a non-JSON content type or an empty or undecodable JSON body.
- File and JSON I/O. The store is `Missing`, `Corrupt` or `Saved(records)`, and a missing file or one that is not valid JSON is the `Missing`/`Corrupt` case. A valid JSON file that is not a list of records (or a stored record without `sender`, which would fail at startup) is not modelled.
- Other read errors (a permission error, a directory in place of the file, bytes that do not decode) raise out of `read_messages` (`channel.py:72-79` catches only a missing file and invalid JSON) and are not modelled; they would fail the request or abort startup.
- The translator and the profanity classifier are uninterpreted parameters. Their exceptions are not modelled, because the source does not catch them.
- The startup timestamp is an opaque string parameter.
- Concurrency: the lost update between `read_messages` and `save_messages` under concurrent requests. Each request is one atomic transition; `Channel.ReplayKeepsLatestWindow` states what serialized handling keeps.
- The order of the external calls relative to the file read is not modelled. The source reads the file after translating, which makes no difference in a sequential model.

=== FILE: auth.dfy ===
/** The shared-secret guard in front of every route (`check_authorization`). */
module Auth {
  import opened Wrappers
  import Config

  /** The only header value the channel accepts. */
  function ExpectedHeader(): (h: string)
    ensures h == "authkey 0987654321"
  {
    var h := Config.AuthScheme + Config.ChannelAuthKey;
    assert forall i :: 0 <= i < |h| ==> h[i] == "authkey 0987654321"[i];
    h
  }

  /**
   Authorized exactly when the `Authorization` header is present and equals
   the scheme prefix followed by the channel secret, character for character.
   */
  function CheckAuthorization(header: Option<string>): (ok: bool)
    ensures ok <==> header == Some("authkey 0987654321")
  {
    if header.None? then false
    else if header.value != ExpectedHeader() then false
    else true
  }
}

=== FILE: channel.dfy ===
/**
 The channel's routes and its startup step: `health_check`, `home_page`,
 `send_message` and the welcome insertion run when the module is loaded.
 A request is one atomic transition of the stored transcript; the translator
 `translate(text, targetCode)` and the profanity classifier `profane(text)`
 are parameters.
 */
module Channel {
  import opened Wrappers
  import opened Text
  import Config
  import opened Messages
  import opened Store
  import opened Auth
  import opened Translation

  /** A request as the handlers see it: the `Authorization` header and the JSON object body, absent when it is JSON `null`. */
  datatype Request = Request(authorization: Option<string>, body: Option<map<string, Json>>)

  /**
   What a handler answers: a plain-text body with a status, the transcript
   or the health record (both JSON, status 200), or an exception the handler
   does not catch.
   */
  datatype Reply =
    | Plain(status: nat, text: string)
    | Transcript(messages: seq<Message>)
    | HealthInfo(name: string)
    | Unhandled

  function Status(r: Reply): nat {
    match r
    case Plain(status, _) => status
    case Transcript(_) => 200
    case HealthInfo(_) => 200
    case Unhandled => 500
  }

  const Unauthorized: Reply := Plain(400, "Invalid authorization")
  const Ok: Reply := Plain(200, "OK")

  /** The reply to a request together with the store it leaves behind. */
  datatype Outcome = Outcome(reply: Reply, store: Store)

  /** `GET /health`: the channel name, to authorized callers only. */
  function HealthCheck(req: Request): (r: Reply)
    ensures r == HealthInfo(Config.ChannelName) <==> CheckAuthorization(req.authorization)
    ensures !CheckAuthorization(req.authorization) ==> r == Unauthorized
  {
    if !CheckAuthorization(req.authorization) then Unauthorized
    else HealthInfo(Config.ChannelName)
  }

  /** `GET /`: the stored transcript as it is read, to authorized callers only. */
  function HomePage(req: Request, st: Store): (r: Reply)
    ensures CheckAuthorization(req.authorization) ==> r == Transcript(ReadMessages(st))
    ensures !CheckAuthorization(req.authorization) ==> r == Unauthorized
  {
    if !CheckAuthorization(req.authorization) then Unauthorized
    else Transcript(ReadMessages(st))
  }

  /**
   The body checks of `send_message`, in their fixed order: a null or
   empty JSON body, then `content`, then `sender`, then `timestamp`. The first
   failing one names the error; `extra` is optional.
   */
  function ShapeError(body: Option<map<string, Json>>): (e: Option<string>)
    ensures e.None? <==> body.Some? && "content" in body.value && "sender" in body.value && "timestamp" in body.value
    ensures e == Some("No message") <==> body.None? || |body.value| == 0
    ensures e == Some("No content") <==> body.Some? && |body.value| > 0 && "content" !in body.value
    ensures e == Some("No sender") <==> body.Some? && "content" in body.value && "sender" !in body.value
    ensures e == Some("No timestamp") <==>
      body.Some? && "content" in body.value && "sender" in body.value && "timestamp" !in body.value
  {
    if body.None? || |body.value| == 0 then Some("No message")
    else if "content" !in body.value then Some("No content")
    else if "sender" !in body.value then Some("No sender")
    else if "timestamp" !in body.value then Some("No timestamp")
    else None
  }

  /** The request passes every check and its content is a string, so the pipeline runs to a business outcome. */
  predicate Accepted(req: Request) {
    && CheckAuthorization(req.authorization)
    && ShapeError(req.body).None?
    && req.body.value["content"].JString?
  }

  /** The submitted content with surrounding whitespace removed. */
  function Content(req: Request): string
    requires Accepted(req)
  {
    Strip(req.body.value["content"].str)
  }

  function Timestamp(req: Request): Json
    requires Accepted(req)
  {
    req.body.value["timestamp"]
  }

  /** The user's record: trimmed content, the sender and timestamp as sent, and the `extra` key always present. */
  function UserMessage(req: Request): (m: Message)
    requires Accepted(req)
    ensures m.content == Content(req) && m.timestamp == Timestamp(req)
    ensures m.sender == req.body.value["sender"] && m.extra.Some?
    ensures "extra" in req.body.value ==> m.extra == Some(req.body.value["extra"])
    ensures "extra" !in req.body.value ==> m.extra == Some(JNull)
  {
    var body := req.body.value;
    Message(Content(req), body["sender"], body["timestamp"], Some(if "extra" in body then body["extra"] else JNull))
  }

  /** The classifier flags the content once it has been translated into the moderation language. */
  predicate Profane(req: Request, translate: (string, string) -> string, profane: string -> bool)
    requires Accepted(req)
  {
    profane(translate(Content(req), Config.ModerationLanguage))
  }

  /** What `send_message` decides before touching the store: an error reply, or the records to append. */
  datatype Decision = Reject(reply: Reply) | Append(records: seq<Message>)

  /**
   The business outcome of a message that passed every check, on the
   trimmed content: moderation first, on the content translated into the
   moderation language, then translation. A refused message yields a single
   system notice; a translated one yields the user's record followed by the
   system reply; all share the request's timestamp.
   */
  function Dispatch(content: string, ts: Json, user: Message, translate: (string, string) -> string, profane: string -> bool): (records: seq<Message>)
    requires user.timestamp == ts
    ensures 1 <= |records| <= 2 && Paired(records)
    ensures IsSystem(records[|records| - 1]) && records[|records| - 1].timestamp == ts
    ensures profane(translate(content, Config.ModerationLanguage)) ==>
      records == [SystemMessage(Config.ModerationRefusal, ts)]
    ensures !profane(translate(content, Config.ModerationLanguage)) && HandleTranslation(content, translate).None? ==>
      records == [SystemMessage(Config.TranslationFailure, ts)]
    ensures !profane(translate(content, Config.ModerationLanguage)) && HandleTranslation(content, translate).Some? ==>
      records == [user, SystemMessage(HandleTranslation(content, translate).value, ts)]
  {
    if profane(translate(content, Config.ModerationLanguage)) then
      var refusal := SystemMessage(Config.ModerationRefusal, ts);
      PairedNotice(refusal);
      [refusal]
    else
      match HandleTranslation(content, translate)
      case None =>
        var failure := SystemMessage(Config.TranslationFailure, ts);
        PairedNotice(failure);
        [failure]
      case Some(response) =>
        var reply := SystemMessage(response, ts);
        PairedReply(user, reply);
        [user, reply]
  }

  /**
   The decision logic of `send_message`: authorization first, then the body
   checks in order, then a content that is not a string fails on `strip()`,
   and only then the business outcome.
   */
  function Intake(req: Request, translate: (string, string) -> string, profane: string -> bool): (d: Decision)
    ensures d.Reject? <==> !Accepted(req)
    ensures !CheckAuthorization(req.authorization) ==> d == Reject(Unauthorized)
    ensures CheckAuthorization(req.authorization) && ShapeError(req.body).Some? ==>
      d == Reject(Plain(400, ShapeError(req.body).value))
    ensures d.Reject? && CheckAuthorization(req.authorization) && ShapeError(req.body).None? ==> d == Reject(Unhandled)
    ensures Accepted(req) ==> d == Append(Dispatch(Content(req), Timestamp(req), UserMessage(req), translate, profane))
  {
    if !CheckAuthorization(req.authorization) then Reject(Unauthorized)
    else if ShapeError(req.body).Some? then Reject(Plain(400, ShapeError(req.body).value))
    else if !req.body.value["content"].JString? then Reject(Unhandled)
    else Append(Dispatch(Content(req), Timestamp(req), UserMessage(req), translate, profane))
  }

  /**
   `POST /`: a rejected request leaves the store as it was; an accepted one
   answers "OK" and saves the window of the transcript with the decided
   records appended.
   */
  function SendMessage(req: Request, st: Store, translate: (string, string) -> string, profane: string -> bool): (out: Outcome)
    ensures out.reply == Ok <==> Accepted(req)
    ensures !Accepted(req) ==> out.store == st && Status(out.reply) in {400, 500}
    ensures !CheckAuthorization(req.authorization) ==> out.reply == Unauthorized
    ensures CheckAuthorization(req.authorization) && ShapeError(req.body).Some? ==>
      out.reply == Plain(400, ShapeError(req.body).value)
    ensures (CheckAuthorization(req.authorization) && ShapeError(req.body).None?
             && !req.body.value["content"].JString?) ==> out.reply == Unhandled
    ensures Accepted(req) ==>
      ReadMessages(out.store) == Window(ReadMessages(st) + Intake(req, translate, profane).records)
    ensures Accepted(req) ==> |ReadMessages(out.store)| <= Config.MessageLimit
  {
    match Intake(req, translate, profane)
    case Reject(reply) => Outcome(reply, st)
    case Append(records) => Outcome(Ok, SaveMessages(ReadMessages(st) + records))
  }

  /** A translated message and its reply are the last two records stored, whatever the window dropped. */
  lemma TranslatedPairIsLast(req: Request, st: Store, translate: (string, string) -> string, profane: string -> bool)
    requires Accepted(req) && !Profane(req, translate, profane)
    requires HandleTranslation(Content(req), translate).Some?
    ensures var ms := ReadMessages(SendMessage(req, st, translate, profane).store);
      |ms| >= 2 && ms[|ms| - 2] == UserMessage(req)
      && ms[|ms| - 1] == SystemMessage(HandleTranslation(Content(req), translate).value, Timestamp(req))
  {
    var reply := SystemMessage(HandleTranslation(Content(req), translate).value, Timestamp(req));
    assert Intake(req, translate, profane).records == [UserMessage(req), reply];
    WindowKeepsLastPair(ReadMessages(st), UserMessage(req), reply);
  }

  /** Every route answers an unauthorized request with the same client error, before any other work, and changes nothing. */
  lemma RoutesCheckAuthorizationFirst(req: Request, st: Store, translate: (string, string) -> string, profane: string -> bool)
    requires !CheckAuthorization(req.authorization)
    ensures HealthCheck(req) == Unauthorized && Status(Unauthorized) == 400
    ensures HomePage(req, st) == Unauthorized
    ensures SendMessage(req, st, translate, profane) == Outcome(Unauthorized, st)
  {
  }

  /** `send_message` keeps every user record immediately followed by a system reply with its timestamp. */
  lemma SendMessagePreservesPaired(req: Request, st: Store, translate: (string, string) -> string, profane: string -> bool)
    requires Paired(ReadMessages(st))
    ensures Paired(ReadMessages(SendMessage(req, st, translate, profane).store))
  {
    var d := Intake(req, translate, profane);
    if d.Append? {
      PairedAppend(ReadMessages(st), d.records);
      SavePreservesPaired(ReadMessages(st) + d.records);
    }
  }

  /** A `GET /` after an accepted `POST /` returns what that post saved; after a rejected one, what was there before. */
  lemma HomePageAfterSendMessage(get: Request, post: Request, st: Store, translate: (string, string) -> string, profane: string -> bool)
    requires CheckAuthorization(get.authorization)
    ensures var after := SendMessage(post, st, translate, profane).store;
      HomePage(get, after) == if Accepted(post)
        then Transcript(Window(ReadMessages(st) + Intake(post, translate, profane).records))
        else HomePage(get, st)
  {
  }

  /**
   A refused message leaves no record of its own: everything stored
   afterwards was stored before, or is the one system notice, the
   moderation refusal when the classifier fired.
   */
  lemma RefusalStoresOnlyNotice(req: Request, st: Store, translate: (string, string) -> string, profane: string -> bool)
    requires Accepted(req)
    requires Profane(req, translate, profane) || HandleTranslation(Content(req), translate).None?
    ensures var notice := if Profane(req, translate, profane) then Config.ModerationRefusal else Config.TranslationFailure;
      forall m :: m in ReadMessages(SendMessage(req, st, translate, profane).store) ==>
        m in ReadMessages(st) || m == SystemMessage(notice, Timestamp(req))
  {
    var notice := if Profane(req, translate, profane) then Config.ModerationRefusal else Config.TranslationFailure;
    assert Intake(req, translate, profane).records == [SystemMessage(notice, Timestamp(req))];
    WindowMembers(ReadMessages(st), [SystemMessage(notice, Timestamp(req))]);
  }

  /** A transcript already at the limit loses its oldest records, welcome included, on every accepted message. */
  lemma FullTranscriptDropsOldest(req: Request, st: Store, translate: (string, string) -> string, profane: string -> bool)
    requires Accepted(req) && |ReadMessages(st)| == Config.MessageLimit
    ensures var records := Intake(req, translate, profane).records;
      1 <= |records| <= 2
      && ReadMessages(SendMessage(req, st, translate, profane).store) == ReadMessages(st)[|records|..] + records
  {
    var records := Intake(req, translate, profane).records;
    assert 1 <= |records| <= 2;
    WindowOfFull(ReadMessages(st), records);
  }

  /** The store after handling `reqs` one at a time, in order. */
  function Replay(st: Store, reqs: seq<Request>, translate: (string, string) -> string, profane: string -> bool): Store
    decreases |reqs|
  {
    if |reqs| == 0 then st
    else Replay(SendMessage(reqs[0], st, translate, profane).store, reqs[1..], translate, profane)
  }

  /** The records one request appends: none when it is rejected. */
  function Contribution(req: Request, translate: (string, string) -> string, profane: string -> bool): seq<Message> {
    match Intake(req, translate, profane)
    case Reject(_) => []
    case Append(records) => records
  }

  /** Everything the requests in `reqs` append, in order. */
  function Appended(reqs: seq<Request>, translate: (string, string) -> string, profane: string -> bool): seq<Message>
    decreases |reqs|
  {
    if |reqs| == 0 then []
    else Contribution(reqs[0], translate, profane) + Appended(reqs[1..], translate, profane)
  }

  /** On a transcript within the limit, one request stores the window of the transcript and its contribution. */
  lemma SendMessageStoresContribution(req: Request, st: Store, translate: (string, string) -> string, profane: string -> bool)
    requires |ReadMessages(st)| <= Config.MessageLimit
    ensures ReadMessages(SendMessage(req, st, translate, profane).store)
      == Window(ReadMessages(st) + Contribution(req, translate, profane))
  {
    if !Accepted(req) {
      assert ReadMessages(st) + [] == ReadMessages(st);
    }
  }

  /**
   Handled one after another, requests lose nothing but what the window
   drops: the final transcript is the last `MessageLimit` records of the
   initial one followed by everything the requests appended.
   */
  lemma {:induction false} ReplayKeepsLatestWindow(st: Store, reqs: seq<Request>, translate: (string, string) -> string, profane: string -> bool)
    requires |ReadMessages(st)| <= Config.MessageLimit
    ensures ReadMessages(Replay(st, reqs, translate, profane)) == Window(ReadMessages(st) + Appended(reqs, translate, profane))
    decreases |reqs|
  {
    if |reqs| == 0 {
      assert ReadMessages(st) + [] == ReadMessages(st);
    } else {
      var before := ReadMessages(st);
      var first := SendMessage(reqs[0], st, translate, profane).store;
      var mine := Contribution(reqs[0], translate, profane);
      var rest := Appended(reqs[1..], translate, profane);
      var final := Replay(first, reqs[1..], translate, profane);
      assert Replay(st, reqs, translate, profane) == final;
      assert Appended(reqs, translate, profane) == mine + rest;
      assert ReadMessages(first) == Window(before + mine) by {
        SendMessageStoresContribution(reqs[0], st, translate, profane);
      }
      assert ReadMessages(final) == Window(ReadMessages(first) + rest) by {
        ReplayKeepsLatestWindow(first, reqs[1..], translate, profane);
      }
      WindowComposeAssoc(before, mine, rest);
    }
  }

  /** The welcome record inserted at startup, stamped with the startup time. */
  function Welcome(now: string): (m: Message)
    ensures IsSystem(m) && m.content == Config.WelcomeText && m.timestamp == JString(now)
    ensures m.extra.None?
  {
    SystemMessage(Config.WelcomeText, JString(now))
  }

  /** The transcript is empty or does not open with a system record. */
  predicate NeedsWelcome(ms: seq<Message>) {
    |ms| == 0 || !IsSystem(ms[0])
  }

  /**
   The startup block: when the transcript read is empty or does not open
   with a system record, the welcome is inserted in front and the result
   saved, so it survives only when fewer than `MessageLimit` records were
   stored; otherwise the store is not touched.
   */
  function Startup(st: Store, now: string): (r: Store)
    ensures !NeedsWelcome(ReadMessages(st)) ==> r == st
    ensures NeedsWelcome(ReadMessages(st)) ==> r.Saved? && |r.messages| <= Config.MessageLimit
    ensures NeedsWelcome(ReadMessages(st)) && |ReadMessages(st)| < Config.MessageLimit ==>
      r.messages == [Welcome(now)] + ReadMessages(st)
    ensures NeedsWelcome(ReadMessages(st)) && |ReadMessages(st)| >= Config.MessageLimit ==>
      r.messages == Window(ReadMessages(st))
  {
    var ms := ReadMessages(st);
    if NeedsWelcome(ms) then
      var all := [Welcome(now)] + ms;
      assert |ms| >= Config.MessageLimit ==> all[|all| - Config.MessageLimit..] == ms[|ms| - Config.MessageLimit..];
      SaveMessages(all)
    else st
  }

  /** A missing store, or one that is not valid JSON, starts as the welcome alone. */
  lemma StartupOnFreshStore(st: Store, now: string)
    requires !st.Saved?
    ensures Startup(st, now) == Saved([Welcome(now)])
  {
    assert ReadMessages(st) == [];
    assert [Welcome(now)] + [] == [Welcome(now)];
  }

  /** Below the limit, the transcript after startup opens with a system record, the welcome when one was needed. */
  lemma StartupOpensWithSystem(st: Store, now: string)
    requires |ReadMessages(st)| < Config.MessageLimit
    ensures var ms := ReadMessages(Startup(st, now));
      |ms| > 0 && IsSystem(ms[0]) && (ms[0] == Welcome(now) || ms == ReadMessages(st))
  {
  }

  /** With exactly `MessageLimit` records stored, the inserted welcome is truncated away and the store is saved unchanged. */
  lemma StartupLosesWelcomeWhenFull(st: Store, now: string)
    requires NeedsWelcome(ReadMessages(st)) && |ReadMessages(st)| == Config.MessageLimit
    ensures Startup(st, now) == Saved(ReadMessages(st))
  {
  }

  /** Startup keeps the pairing invariant. */
  lemma StartupPreservesPaired(st: Store, now: string)
    requires Paired(ReadMessages(st))
    ensures Paired(ReadMessages(Startup(st, now)))
  {
    var ms := ReadMessages(st);
    if NeedsWelcome(ms) {
      PairedPrepend(Welcome(now), ms);
      SavePreservesPaired([Welcome(now)] + ms);
    }
  }
}

=== FILE: config.dfy ===
/**
 The constants the intake pipeline uses and the fixed texts it writes into
 the transcript.
 */
module Config {

  /** The inbound shared secret every request must present. */
  const ChannelAuthKey: string := "0987654321"
  /** The only accepted credential scheme; the header must be this prefix followed by the secret. */
  const AuthScheme: string := "authkey "
  const ChannelName: string := "AI Multi Translation"
  /** Language codes a directive may name. */
  const SupportedLanguages: seq<string> := ["en", "fr", "de", "es", "it", "nl", "pt"]
  /** The target language when the content carries no directive. */
  const DefaultLanguage: string := "en"
  /** The language content is translated into before the profanity classifier sees it. */
  const ModerationLanguage: string := "en"
  /** The size of the sliding window kept by every save. */
  const MessageLimit: nat := 50
  /** The sender that marks system-generated records. */
  const SystemSender: string := "System 🤖"

  const ModerationRefusal: string :=
    "⚠️ Sorry, but your message contains inappropriate words and cannot be translated. Please try again with respectful language."
  const TranslationFailure: string :=
    "⚠️ Sorry, but your message could not be translated. Please check the language code or try again."
  /** The fixed template put in front of every successful translation. */
  const TranslationPrefix: string := "✅ **Translation:** \n> "
  const WelcomeText: string :=
    "👋 Welcome to the Translation Channel! \n"
    + "Simply type your message with the target language in brackets, like this: **[fr] Hello**. \n"
    + "If you don't specify a language (or omit brackets), I'll automatically translate it to English! 🌎✨ \n"
    + "Available languages: English (en), French (fr), German (de), Spanish (es), Italian (it), Dutch (nl), and Portuguese (pt). Enjoy! 😊"
}

=== FILE: messages.dfy ===
/**
 The persisted unit of the transcript and the pairing invariant that the
 intake pipeline keeps on it.
 */
module Messages {
  import opened Wrappers
  import Config

  /**
   A JSON value as far as the channel looks into it: `null`, a string, or any
   other value carried through without interpretation (kept as its raw text).
   */
  datatype Json = JNull | JString(str: string) | JOther(raw: string)

  /**
   One transcript record. `extra` is `None` when the record has no `extra`
   key at all (system records) and `Some(v)` when the key is present, where
   `v` may be `JNull` (user records always carry the key).
   */
  datatype Message = Message(content: string, sender: Json, timestamp: Json, extra: Option<Json>)

  predicate IsSystem(m: Message) {
    m.sender == JString(Config.SystemSender)
  }

  /** A system-generated record: the system sender, no `extra` key. */
  function SystemMessage(content: string, timestamp: Json): (m: Message)
    ensures IsSystem(m) && m.extra.None?
    ensures m.content == content && m.timestamp == timestamp
  {
    Message(content, JString(Config.SystemSender), timestamp, None)
  }

  /**
   Every record from a non-system sender is immediately followed by a system
   record with the same timestamp.
   */
  predicate Paired(s: seq<Message>) {
    forall i :: 0 <= i < |s| && !IsSystem(s[i]) ==>
      i + 1 < |s| && IsSystem(s[i + 1]) && s[i + 1].timestamp == s[i].timestamp
  }

  /** A lone system record is paired. */
  lemma PairedNotice(notice: Message)
    requires IsSystem(notice)
    ensures Paired([notice])
  {
  }

  /** A record followed by a system reply with its timestamp is paired. */
  lemma PairedReply(m: Message, reply: Message)
    requires IsSystem(reply) && reply.timestamp == m.timestamp
    ensures Paired([m, reply])
  {
    var s := [m, reply];
    assert forall i :: 0 <= i < 2 ==> s[i] == if i == 0 then m else reply;
  }

  /** Dropping the oldest records keeps the pairing. */
  lemma PairedSuffix(s: seq<Message>, k: nat)
    requires k <= |s| && Paired(s)
    ensures Paired(s[k..])
  {
    forall i | 0 <= i < |s| - k && !IsSystem(s[k..][i])
      ensures i + 1 < |s| - k && IsSystem(s[k..][i + 1]) && s[k..][i + 1].timestamp == s[k..][i].timestamp
    {
      assert s[k..][i] == s[k + i];
    }
  }

  /** Appending a system record, or a record followed by its system reply, keeps the pairing. */
  lemma PairedAppend(s: seq<Message>, added: seq<Message>)
    requires Paired(s) && Paired(added)
    ensures Paired(s + added)
  {
    var t := s + added;
    forall i | 0 <= i < |t| && !IsSystem(t[i])
      ensures i + 1 < |t| && IsSystem(t[i + 1]) && t[i + 1].timestamp == t[i].timestamp
    {
      if i < |s| {
        assert t[i] == s[i];
        assert t[i + 1] == s[i + 1];
      } else {
        assert t[i] == added[i - |s|];
        assert t[i + 1] == added[i + 1 - |s|];
      }
    }
  }

  /** Putting a system record in front keeps the pairing. */
  lemma PairedPrepend(m: Message, s: seq<Message>)
    requires IsSystem(m) && Paired(s)
    ensures Paired([m] + s)
  {
    var t := [m] + s;
    forall i | 0 < i < |t| && !IsSystem(t[i])
      ensures i + 1 < |t| && IsSystem(t[i + 1]) && t[i + 1].timestamp == t[i].timestamp
    {
      assert t[i] == s[i - 1];
      assert t[i + 1] == s[i];
    }
  }
}

=== FILE: store.dfy ===
/**
 The transcript store: the JSON file read whole by `read_messages` and
 rewritten whole, truncated to the last `MessageLimit` records, by
 `save_messages`.
 */
module Store {
  import Config
  import opened Messages

  /**
   The persisted file: absent, present but not valid JSON, or holding a list
   of records.
   */
  datatype Store = Missing | Corrupt | Saved(messages: seq<Message>)

  /** Python's `messages[-MESSAGE_LIMIT:]`: the most recent `MessageLimit` records, oldest first. */
  function Window(ms: seq<Message>): (w: seq<Message>)
    ensures |w| == if |ms| <= Config.MessageLimit then |ms| else Config.MessageLimit
    ensures w == ms[|ms| - |w|..]
    ensures |ms| <= Config.MessageLimit ==> w == ms
  {
    if |ms| <= Config.MessageLimit then ms else ms[|ms| - Config.MessageLimit..]
  }

  /** `read_messages`: what the file holds, or the empty transcript when it is absent or not valid JSON. */
  function ReadMessages(st: Store): (ms: seq<Message>)
    ensures st.Saved? <==> st == Saved(ms)
    ensures !st.Saved? ==> ms == []
  {
    match st
    case Saved(ms) => ms
    case _ => []
  }

  /** `save_messages`: the file afterwards holds the window of `ms`. */
  function SaveMessages(ms: seq<Message>): (st: Store)
    ensures ReadMessages(st) == Window(ms)
    ensures |ReadMessages(st)| <= Config.MessageLimit
  {
    Saved(Window(ms))
  }

  /** A suffix that still holds at least a window's worth of records has the same window. */
  lemma WindowOfLongSuffix(ms: seq<Message>, k: nat)
    requires k <= |ms| && (k == 0 || |ms| - k >= Config.MessageLimit)
    ensures Window(ms[k..]) == Window(ms)
  {
    if k > 0 {
      assert ms[k..][|ms| - k - Config.MessageLimit..] == ms[|ms| - Config.MessageLimit..];
    }
  }

  /** Saving twice in a row stores the same as saving once. */
  lemma WindowIdempotent(ms: seq<Message>)
    ensures Window(Window(ms)) == Window(ms)
  {
  }

  /**
   Truncating before appending loses nothing the final truncation would keep:
   saving `Window(a) + b` stores the same as saving `a + b`.
   */
  lemma {:induction false} WindowCompose(a: seq<Message>, b: seq<Message>)
    ensures Window(Window(a) + b) == Window(a + b)
  {
    var k := |a| - |Window(a)|;
    assert (a + b)[k..] == Window(a) + b;
    WindowOfLongSuffix(a + b, k);
  }

  /** Every record in a saved window was already there or is one of those appended. */
  lemma WindowMembers(ms: seq<Message>, added: seq<Message>)
    ensures forall m :: m in Window(ms + added) ==> m in ms || m in added
  {
    var all := ms + added;
    var w := Window(all);
    forall m | m in w
      ensures m in ms || m in added
    {
      var i :| 0 <= i < |w| && w[i] == m;
      var j := |all| - |w| + i;
      assert w[i] == all[j];
      if j < |ms| {
        assert ms[j] == m;
      } else {
        assert added[j - |ms|] == m;
      }
    }
  }

  /** `WindowCompose` for a transcript that grows in two steps. */
  lemma WindowComposeAssoc(a: seq<Message>, b: seq<Message>, c: seq<Message>)
    ensures Window(Window(a + b) + c) == Window(a + (b + c))
  {
    WindowCompose(a + b, c);
    assert a + b + c == a + (b + c);
  }

  /** Appending to a full window pushes out exactly as many of the oldest records. */
  lemma WindowOfFull(ms: seq<Message>, added: seq<Message>)
    requires |ms| == Config.MessageLimit && |added| <= Config.MessageLimit
    ensures Window(ms + added) == ms[|added|..] + added
  {
    var all := ms + added;
    assert all[|added|..] == ms[|added|..] + added;
  }

  /** A pair appended last survives the save as its last two records. */
  lemma WindowKeepsLastPair(ms: seq<Message>, first: Message, second: Message)
    ensures var w := Window(ms + [first, second]);
      |w| >= 2 && w[|w| - 2] == first && w[|w| - 1] == second
  {
    var all := ms + [first, second];
    assert all[|all| - 2] == first && all[|all| - 1] == second;
  }

  /** Every save keeps the pairing invariant of what it is given. */
  lemma SavePreservesPaired(ms: seq<Message>)
    requires Paired(ms)
    ensures Paired(ReadMessages(SaveMessages(ms)))
  {
    PairedSuffix(ms, |ms| - |Window(ms)|);
  }
}

=== FILE: text.dfy ===
/**
 The string helpers the channel relies on: Python's `str.strip()` with no
 argument, and `str.index` / `in` for one character.
 */
module Text {

  /** True of exactly the characters for which Python's `str.isspace()` holds. */
  predicate IsSpace(c: char) {
    || ('\U{09}' <= c <= '\U{0D}')
    || ('\U{1C}' <= c <= '\U{20}')
    || c == '\U{85}' || c == '\U{A0}' || c == '\U{1680}'
    || ('\U{2000}' <= c <= '\U{200A}')
    || c == '\U{2028}' || c == '\U{2029}' || c == '\U{202F}' || c == '\U{205F}'
    || c == '\U{3000}'
  }

  predicate AllSpace(s: string) {
    forall k :: 0 <= k < |s| ==> IsSpace(s[k])
  }

  /** A string with nothing for `strip()` to remove. */
  predicate Stripped(s: string) {
    |s| == 0 || (!IsSpace(s[0]) && !IsSpace(s[|s| - 1]))
  }

  /** `r` sits at offset `i` of `s` with only whitespace on either side of it. */
  predicate PaddingAt(s: string, r: string, i: nat) {
    i + |r| <= |s| && r == s[i..i + |r|] && AllSpace(s[..i]) && AllSpace(s[i + |r|..])
  }

  /** `s` is `r` with whitespace added on either side. */
  predicate PaddedBy(s: string, r: string) {
    exists i: nat | i <= |s| :: PaddingAt(s, r, i)
  }

  /** The number of whitespace characters `strip()` removes at the front of `s`. */
  function LeadingSpace(s: string): (n: nat)
    ensures n <= |s|
    ensures AllSpace(s[..n])
    ensures n < |s| ==> !IsSpace(s[n])
  {
    if |s| > 0 && IsSpace(s[0]) then
      var n := 1 + LeadingSpace(s[1..]);
      assert forall k :: 1 <= k < n ==> s[k] == s[1..][..n - 1][k - 1];
      n
    else 0
  }

  /** The number of whitespace characters `strip()` removes at the back of `s`. */
  function TrailingSpace(s: string): (n: nat)
    ensures n <= |s|
    ensures AllSpace(s[|s| - n..])
    ensures n < |s| ==> !IsSpace(s[|s| - n - 1])
  {
    if |s| > 0 && IsSpace(s[|s| - 1]) then
      var n := 1 + TrailingSpace(s[..|s| - 1]);
      assert forall k :: |s| - n <= k < |s| - 1 ==> s[k] == s[..|s| - 1][k];
      n
    else 0
  }

  /**
   Python's `s.strip()`: the result is a contiguous piece of `s`, everything
   around it is whitespace, and it neither starts nor ends with whitespace.
   */
  function Strip(s: string): (r: string)
    ensures |r| <= |s|
    ensures Stripped(r)
    ensures PaddedBy(s, r)
  {
    var i := LeadingSpace(s);
    var t := s[i..];
    var j := TrailingSpace(t);
    var r := t[..|t| - j];
    assert r == s[i..i + |r|];
    assert s[i + |r|..] == t[|t| - j..];
    assert PaddingAt(s, r, i);
    r
  }

  /** The first index of `c` in `s`, or `|s|` when `c` does not occur (Python's `c in s` / `s.index(c)`). */
  function FirstIndex(s: string, c: char): (k: nat)
    ensures k <= |s|
    ensures k < |s| ==> s[k] == c
    ensures forall j :: 0 <= j < k ==> s[j] != c
    ensures k == |s| <==> c !in s
  {
    if |s| == 0 then 0
    else if s[0] == c then 0
    else
      var k := 1 + FirstIndex(s[1..], c);
      assert forall j :: 1 <= j < k ==> s[j] == s[1..][j - 1];
      k
  }

  /** `LeadingSpace` is determined by its contract: the first non-space position. */
  lemma {:induction false} LeadingSpaceUnique(s: string, k: nat)
    requires k <= |s| && AllSpace(s[..k]) && (k < |s| ==> !IsSpace(s[k]))
    ensures LeadingSpace(s) == k
  {
    var n := LeadingSpace(s);
  }

  /** `TrailingSpace` is determined by its contract: the last non-space position. */
  lemma {:induction false} TrailingSpaceUnique(s: string, k: nat)
    requires k <= |s| && AllSpace(s[|s| - k..]) && (k < |s| ==> !IsSpace(s[|s| - k - 1]))
    ensures TrailingSpace(s) == k
  {
    var n := TrailingSpace(s);
  }

  /** Whitespace padding on both sides of a stripped string is exactly what `Strip` removes. */
  lemma {:induction false} StripUnpadded(p: string, t: string, q: string)
    requires AllSpace(p) && AllSpace(q) && Stripped(t)
    ensures Strip(p + t + q) == t
  {
    var s := p + t + q;
    if |t| == 0 {
      assert s == p + q;
      assert AllSpace(s) by {
        forall k | 0 <= k < |s| ensures IsSpace(s[k]) {
          if k < |p| { assert s[k] == p[k]; } else { assert s[k] == q[k - |p|]; }
        }
      }
      assert s[..|s|] == s;
      LeadingSpaceUnique(s, |s|);
      assert s[|s|..] == [];
      TrailingSpaceUnique([], 0);
    } else {
      assert s[..|p|] == p;
      assert s[|p|] == t[0];
      LeadingSpaceUnique(s, |p|);
      var u := s[|p|..];
      assert u == t + q;
      assert u[|u| - |q|..] == q;
      assert u[|u| - |q| - 1] == t[|t| - 1];
      TrailingSpaceUnique(u, |q|);
      assert u[..|u| - |q|] == t;
    }
  }

  /** A string with no surrounding whitespace is left as it is. */
  lemma {:induction false} StripStripped(s: string)
    requires Stripped(s)
    ensures Strip(s) == s
  {
    assert [] + s + [] == s;
    StripUnpadded([], s, []);
  }

  /** One leading blank is dropped from a stripped string. */
  lemma {:induction false} StripAfterBlank(s: string)
    requires Stripped(s)
    ensures Strip(" " + s) == s
  {
    assert AllSpace(" ");
    assert " " + s + [] == " " + s;
    StripUnpadded(" ", s, []);
  }

  /** `strip()` is idempotent. */
  lemma StripIdempotent(s: string)
    ensures Strip(Strip(s)) == Strip(s)
  {
    StripStripped(Strip(s));
  }
}

=== FILE: translation.dfy ===
/**
 The directive parser and translation dispatcher (`handle_translation`). The
 external translator is a parameter `translate(text, targetCode)`.
 */
module Translation {
  import opened Wrappers
  import opened Text
  import Config

  /** A parsed message: the target language code and the text to translate. */
  datatype Directive = Directive(lang: string, text: string)

  /** The content opens with `[` (`startswith` for one character) and contains a `]` somewhere. */
  predicate HasDirective(content: string) {
    |content| > 0 && content[0] == '[' && ']' in content
  }

  /** `k` is the position of the first `]` in the content, after the opening bracket. */
  predicate FirstClose(content: string, k: nat) {
    0 < k < |content| && content[k] == ']' && ']' !in content[..k]
  }

  /** The code between the opening bracket and position `k`, and the text after `k`, both trimmed. */
  function SplitAt(content: string, k: nat): Directive
    requires 0 < k < |content|
  {
    Directive(Strip(content[1..k]), Strip(content[k + 1..]))
  }

  /** With a directive present, the first `]` is where the content is split. */
  lemma {:induction false} FirstIndexCloses(content: string)
    requires HasDirective(content)
    ensures FirstClose(content, FirstIndex(content, ']'))
  {
    var k := FirstIndex(content, ']');
    assert forall j :: 0 <= j < k ==> content[..k][j] == content[j];
  }

  /**
   Splits an optional leading `[code]` off the content. With a directive the
   code is the trimmed text between the opening bracket and the FIRST `]`, and
   the text is the trimmed rest after that bracket; without one the code is
   the default language and the text is the whole content, trimmed.
   */
  function ParseDirective(content: string): (d: Directive)
    ensures HasDirective(content) ==> exists k: nat :: FirstClose(content, k) && d == SplitAt(content, k)
    ensures !HasDirective(content) ==> d == Directive(Config.DefaultLanguage, Strip(content))
  {
    if HasDirective(content) then
      FirstIndexCloses(content);
      SplitAt(content, FirstIndex(content, ']'))
    else
      Directive(Config.DefaultLanguage, Strip(content))
  }

  /**
   `handle_translation`: no response exactly when the parsed code is not a
   supported language, which only a directive can cause; otherwise the
   translator's output for the parsed text and code inside the fixed success
   template, which is never empty.
   */
  function HandleTranslation(content: string, translate: (string, string) -> string): (r: Option<string>)
    ensures r.None? <==> ParseDirective(content).lang !in Config.SupportedLanguages
    ensures r.None? ==> HasDirective(content)
    ensures r.Some? ==> |r.value| > 0
    ensures r.Some? ==> r.value == Config.TranslationPrefix + translate(ParseDirective(content).text, ParseDirective(content).lang)
  {
    var d := ParseDirective(content);
    if d.lang !in Config.SupportedLanguages then None
    else Some(Config.TranslationPrefix + translate(d.text, d.lang))
  }

  /** The directive syntax the welcome message advertises: `[code] text`. */
  function FormatDirective(lang: string, text: string): (s: string)
    ensures HasDirective(s)
  {
    var s := "[" + lang + "] " + text;
    assert s[1 + |lang|] == ']';
    s
  }

  /** The first-`]` position is unique, so it is the one `FirstIndex` finds. */
  lemma {:induction false} FirstCloseIsFirstIndex(content: string, k: nat)
    requires FirstClose(content, k)
    ensures FirstIndex(content, ']') == k
  {
  }

  /** Any first-`]` position determines the parse. */
  lemma {:induction false} ParseAtFirstClose(content: string, k: nat)
    requires FirstClose(content, k) && content[0] == '['
    ensures ParseDirective(content) == SplitAt(content, k)
  {
    FirstCloseIsFirstIndex(content, k);
  }

  /** Where the pieces of a formatted directive sit. */
  lemma {:induction false} FormatLayout(lang: string, text: string)
    requires ']' !in lang
    ensures FirstClose(FormatDirective(lang, text), 1 + |lang|)
    ensures FormatDirective(lang, text)[1..1 + |lang|] == lang
    ensures FormatDirective(lang, text)[2 + |lang|..] == " " + text
  {
    var s := FormatDirective(lang, text);
    assert s[..1 + |lang|] == "[" + lang;
  }

  /** Parsing a formatted directive gives back its code and text. */
  lemma {:induction false} DirectiveRoundTrip(lang: string, text: string)
    requires ']' !in lang && Stripped(lang) && Stripped(text)
    ensures ParseDirective(FormatDirective(lang, text)) == Directive(lang, text)
  {
    var s := FormatDirective(lang, text);
    FormatLayout(lang, text);
    ParseAtFirstClose(s, 1 + |lang|);
    StripStripped(lang);
    StripAfterBlank(text);
  }

  /** Content without a directive is always translated, into the default language. */
  lemma NoDirectiveTranslatesToDefault(content: string, translate: (string, string) -> string)
    requires !HasDirective(content)
    ensures HandleTranslation(content, translate) == Some(Config.TranslationPrefix + translate(Strip(content), "en"))
  {
  }

  /** A well-formed directive naming a supported language is translated into it; an unsupported one gets no response. */
  lemma FormattedDirectiveDispatch(lang: string, text: string, translate: (string, string) -> string)
    requires ']' !in lang && Stripped(lang) && Stripped(text)
    ensures lang in Config.SupportedLanguages ==>
      HandleTranslation(FormatDirective(lang, text), translate) == Some(Config.TranslationPrefix + translate(text, lang))
    ensures lang !in Config.SupportedLanguages <==> HandleTranslation(FormatDirective(lang, text), translate).None?
  {
    DirectiveRoundTrip(lang, text);
  }

  /** `[fr] Hello` asks for French and the text `Hello`. */
  lemma ExampleFrenchDirective()
    ensures ParseDirective("[fr] Hello") == Directive("fr", "Hello")
  {
    assert FormatDirective("fr", "Hello") == "[fr] Hello";
    DirectiveRoundTrip("fr", "Hello");
  }

  /** `Hello` has no directive: English, the text `Hello`. */
  lemma ExampleNoDirective()
    ensures ParseDirective("Hello") == Directive("en", "Hello")
  {
    StripStripped("Hello");
  }

  /** `[xx] Hi` names an unsupported code and gets no response. */
  lemma ExampleUnknownCode(translate: (string, string) -> string)
    ensures HandleTranslation("[xx] Hi", translate).None?
  {
    assert FormatDirective("xx", "Hi") == "[xx] Hi" by {}
    assert Stripped("xx") && ']' !in "xx" && Stripped("Hi") by {}
    assert "xx" !in Config.SupportedLanguages by {}
    FormattedDirectiveDispatch("xx", "Hi", translate);
  }

  /** `[] Hi` names the empty code, which is not supported either. */
  lemma ExampleEmptyCode(translate: (string, string) -> string)
    ensures HandleTranslation("[] Hi", translate).None?
  {
    assert FormatDirective("", "Hi") == "[] Hi" by {}
    assert Stripped("") && ']' !in "" && Stripped("Hi") by {}
    assert "" !in Config.SupportedLanguages by {}
    FormattedDirectiveDispatch("", "Hi", translate);
  }
}

=== FILE: wrappers.dfy ===
/** The optional value used wherever the source returns `None` or a key may be absent. */
module Wrappers {

  datatype Option<+T> = None | Some(value: T)
}
